=== FILE: README.md ===
# User-login ETL: a Dafny model

This project models the consume-transform-persist-acknowledge core of
`user_logins_etl.py`. That program reads user-login events from an SQS
queue, masks the IP address and device id with SHA-256, and truncates
`device_type` to 32 characters. It inserts the result into the PostgreSQL
table `user_logins` and deletes the message from the queue. A message that
fails is recorded in the table `error_records`.

The model is functional. The queue and the two tables are immutable values
(`LoginsEtl.State`). Every network or database call becomes an oracle
answer: the caller supplies whether it succeeds (`MessageIo`, `LogIo`,
`ReceiveIo`, `DepthReply`). `json.loads` and SHA-256 are function-valued
parameters (`LoginsEtl.Externals`). The clock reading for `create_date` is a
parameter. The two loops are folds over a finite script of oracle answers.
A run that uses up its script without stopping is reported as `Running`.

Modules, leaves first:

- `Wrappers` (wrappers.dfy): `Option` and `Result`.
- `Masking` (masking.dfy): `mask_field` and the shape of a hex digest.
- `Normalizer` (normalizer.dfy): `strip_extra_chars` and the record
  construction of `process_message`, including which key a `KeyError`
  blames.
- `SqsQueue` (queue.dfy): receive, delete and the depth query.
- `Gateway` (gateway.dfy): `insert_data` and `log_error` as table appends.
- `LoginsEtl` (etl.dfy): `process_message`, the caller's `except` clause,
  and the per-message block shared by both loops.
- `Loops` (loops.dfy): the batch loop, the drain loop of `main` (written
  over any round body that stops and keeps the books the way `main`'s
  does), and the continuous loop of `poll_sqs_queue`.
- `Scenarios` (scenarios.dfy): concrete end-to-end behaviours.

## Behaviour of the code worth knowing

- Read order. The code reads `ip` and `device_id` first (lines 54-55), then
  `user_id`, `device_type`, `locale` and `app_version` (lines 58-63). With
  several keys missing, the `KeyError` names the first absent key in that
  order. `Normalizer.ReadOrder` is this order.
- Two error rows when `process_message` raises. Each message whose body
  parses and whose `process_message` raises is logged twice: once inside `process_message` (line 71) and once in the
  caller (lines 157 and 193). The first row carries the body as
  `process_message` left it. That body gains `masked_ip` once `ip` has been
  read, and `masked_device_id` once `device_id` has been read too. When
  `ip` is missing it is logged unannotated. The second row carries the body
  parsed afresh.
- Unparsable body. When `json.loads` fails, the handler in
  `process_message` reads the unassigned `message_body` and raises. Then the
  caller's handler calls `json.loads` again, which raises out of the loop.
  Nothing is logged and the rest of the batch is not processed.
- Commits. `main` commits once per message, right after the delete
  (line 190). If the commit fails, the message has already been deleted,
  and it is logged once, by the caller (line 193), with a `CommitFailed`
  row. `poll_sqs_queue` never commits.

## Model

| member | source | states |
|---|---|---|
| `Masking.MaskDeterministic` | user_logins_etl.py:33-34 | masking depends on the value only; the token is 64 lower-case hex digits |
| `Normalizer.StripExtraChars` | user_logins_etl.py:48-49 | the result is the prefix of the input of length min(length, limit) |
| `Normalizer.StripShortUnchanged` | user_logins_etl.py:48-49 | a string within the limit comes back unchanged |
| `Normalizer.StripIdempotent` | user_logins_etl.py:48-49 | stripping twice equals stripping once |
| `Normalizer.BuildRecord` | user_logins_etl.py:53-65 | a record exists exactly when all six keys are present. It copies `user_id`, `locale` and `app_version`, masks `ip` and `device_id`, truncates `device_type` to 32, and stamps the supplied time. Otherwise the blamed key is the first absent one in the code's read order. The annotated body only gains the masked keys |
| `Normalizer.CompleteIsReadOrder` | user_logins_etl.py:54-63 | the six required keys are exactly the keys the code reads |
| `Normalizer.BlamedUnique` | user_logins_etl.py:54-63 | the blamed key is determined by the body: at most one key is first-absent |
| `SqsQueue.Receive` | user_logins_etl.py:93-107 | a receive raises exactly when the service call fails; otherwise it returns at most one message (`MaxNumberOfMessages=1`), all taken from the queue |
| `SqsQueue.RemoveFirst` | user_logins_etl.py:115-118 | a delete removes at most one message, and only one carrying the receipt handle; every other message keeps its count |
| `SqsQueue.DeleteMessage` | user_logins_etl.py:109-121 | a delete the service honours removes the first message carrying the receipt handle; a failed delete is swallowed and leaves the queue unchanged; a delete never adds messages |
| `SqsQueue.MessageCount` | user_logins_etl.py:123-136 | the count is 0 exactly when the query fails or reports 0; any non-zero count is the reported one |
| `Gateway.InsertData` | user_logins_etl.py:36-46 | a row is appended exactly when the INSERT succeeds; otherwise the exception is raised again and nothing changes |
| `Gateway.LogError` | user_logins_etl.py:74-89 | never raises; appends the row exactly when table creation and insert both succeed; nothing else changes; the table exists afterwards if creation succeeded |
| `Gateway.LogErrorTwice` | user_logins_etl.py:76-86 | two failures logged in a row, with both statements succeeding each time, both land in order, whether or not the table existed before |
| `LoginsEtl.ProcessMessage` | user_logins_etl.py:51-72 | returns normally exactly when the body parses, is complete and the insert succeeds, adding that message's record. An unparsable body raises with nothing logged. Any other failure raises the missing-key or insert fault after logging at most one row with the annotated body |
| `LoginsEtl.HandleMessage` | user_logins_etl.py:186-193 | per message: the exception escapes exactly when the body does not parse, and then nothing has been recorded; the continuous loop's variant never commits |
| `LoginsEtl.HandleMessageOutcome` | user_logins_etl.py:186-190 | a login row is added exactly when `process_message` returns normally, and it is the message's record stamped with the supplied time; the message is deleted (when the service obliges) and, in `main`, committed only then |
| `LoginsEtl.HandleMessageErrors` | user_logins_etl.py:186-193 | error rows per message follow the outcome table: none for an unparsable body, one from each `log_error` that lands when normalising or inserting fails, one when only `main`'s commit fails; earlier rows are kept |
| `LoginsEtl.HandleMessageFaults` | user_logins_etl.py:191-193 | every error row a message adds names that message and its fault (the first absent key, the insert, or the commit), and the caller's row carries the body as parsed afresh |
| `Loops.HandleBatch` | user_logins_etl.py:186-193 | the batch loop stops early exactly when some body does not parse; the continuous loop's batch never commits |
| `Loops.HandleBatchOne` | user_logins_etl.py:186-193 | a batch of one message, the most a receive returns, ends in exactly the state the per-message block leaves for that message |
| `Loops.HandleBatchAccounted` | user_logins_etl.py:186-193 | over a batch, tables only grow, every delete and commit is matched by a login row, at most one login and two error rows per message, and every new login row is the record of a batch message |
| `Loops.DrainRound` | user_logins_etl.py:172-193 | one pass of `main`: exits with nothing changed exactly when the depth reads 0. After a non-zero reading, a failed receive raises out of the loop with nothing changed. The only other crash is an unparsable body, and one is then in the queue |
| `Loops.DrainRoundDelivers` | user_logins_etl.py:184-193 | after a non-zero reading, a delivered message leaves exactly the state the per-message block (with commit) produces for it |
| `Loops.DrainRoundAccounted` | user_logins_etl.py:184-193 | one pass of `main` handles at most one message and keeps the books; its login row comes from the queue |
| `Loops.DrainFrom` | user_logins_etl.py:168-199 | the loop driven by a round body: a stop consumes the round it happens in, and a run still going has used the whole script |
| `Loops.DrainFromStops` | user_logins_etl.py:168-199 | any loop whose body stops like `main`'s exits exactly at the first zero reading, after only non-zero readings and working receives, and crashes only with a failed receive in its last round or an unparsable body |
| `Loops.DrainFromCrashes` | user_logins_etl.py:184-193 | when such a loop also only takes messages out of the queue, a crash on an unparsable body means the starting queue held one |
| `Loops.DrainFromAccounted` | user_logins_etl.py:168-199 | any loop whose body keeps the books keeps them over the whole run, one message per round, with every login row from the starting queue |
| `Loops.Drain` | user_logins_etl.py:168-199 | the drain exits exactly at a zero depth reading, after only non-zero readings. Every round before the last had a working receive. It crashes only on a failed receive in its last round, or on an unparsable body that was in the starting queue. The books hold over the whole run, with at most one message per round, and every new row comes from a message of the starting queue |
| `Loops.DrainStopsAtFirstZero` | user_logins_etl.py:178-199 | unless it crashes first, the drain exits at the round of the first zero reading |
| `Loops.ZeroDepthExitsAtOnce` | user_logins_etl.py:123-136 | a failing or zero first depth query ends the drain at once with nothing changed |
| `Loops.DrainKeepsGoing` | user_logins_etl.py:186-193 | with non-zero depth readings, working receives and parsable bodies, no insert, log, delete or commit failure stops the drain |
| `Loops.RoundContinues` | user_logins_etl.py:184-193 | a round with parsable bodies and a working receive moves on, and the queue it leaves holds only parsable bodies |
| `Loops.PollOnce` | user_logins_etl.py:145-157 | an empty receive sleeps 10 seconds with nothing changed; a failed receive raises with nothing changed; a delivered message leaves exactly the state the per-message block (without commit) produces for it; the only other crash is an unparsable body, and one is then in the queue; no commit ever; at most one message handled |
| `Loops.Poll` | user_logins_etl.py:144-157 | the continuous loop never exits of its own accord and never commits. Every round before the last had a working receive. A crash is a failed receive in the last round or an unparsable body from the starting queue. The books hold and rows come from the starting queue |
| `Loops.PollOn` | user_logins_etl.py:144-157 | after a first round that did not crash, the rest of the continuous run keeps the same promises, measured from the state before that round |
| `Scenarios.CompleteEventIsStored` | user_logins_etl.py:53-68 | a complete event is stored with masked `ip`/`device_id` and `device_type` intact; the message is deleted and the drain commits |
| `Scenarios.MissingLocaleIsLoggedTwice` | user_logins_etl.py:62-72 | an event without `locale`: no login row, no delete, no commit; two `MissingKey("locale")` rows, the first with the annotated body |
| `Scenarios.MalformedBodyCrashesDrain` | user_logins_etl.py:191-193 | an unparsable body ends the drain with the queue and tables unchanged |
| `Scenarios.EmptyReceiveSleeps` | user_logins_etl.py:145-149 | an empty receive in the continuous loop sleeps 10 seconds and changes nothing |
| `Scenarios.FailedDeleteKeepsMessage` | user_logins_etl.py:109-121 | a stored message whose delete fails stays in the queue, so it can be stored again |
| `Scenarios.FailedCommitAfterDelete` | user_logins_etl.py:188-193 | a failed commit in `main` follows the delete: the message is gone, nothing is committed, one `CommitFailed` row is logged |
| `Scenarios.ContinuousDeletesWithoutCommit` | user_logins_etl.py:151-154 | the continuous loop deletes a stored message without ever committing |

## Left out

- Network and database calls (boto3 SQS, psycopg2 connection and cursor) are oracle answers, not implementations. Connection setup and closing are not modelled.
- PostgreSQL transaction semantics are not modelled. For example, an aborted transaction rejects later statements, and uncommitted rows are rolled back at exit. The model records inserts and counts commits.
- SQS visibility timeouts and redelivery timing are not modelled. A receive may hand out any queued message, or none.
- SHA-256 (FIPS 180-4) and JSON parsing are parameters; only the digest's shape (64 lower-case hex digits) is fixed.
- JSON bodies that parse to something other than an object (`[1]`, `"x"`, `7`, `true`, `null`) are not modelled: a body is a map. In the code `json.loads` succeeds and `message_body["ip"]` (line 54) raises `TypeError`, which takes the missing-key path: two rows, and the loop goes on. `Externals.parseJson` stands for such a body by returning a payload without `ip` (for example the empty map), which the model blames on `ip` in place of the `TypeError`. Returning `None` would wrongly crash the loop with nothing logged.
- Loops.HandleBatch: batches of more than one message are described only by the escape condition and the books (`HandleBatchAccounted`), not message by message, because every receive asks for at most one message (line 102); `Loops.HandleBatchOne` pins the one-message batch to the per-message block.
- JSON values other than strings are not modelled: a body is a map from strings to strings. In the code, `user_id`, `locale` and `app_version` are copied whatever their type (lines 58, 62-63). So a `null` or a number, such as the `null` that `csv_to_sqs.py` writes for a short CSV row, reaches the INSERT. A non-string `ip` or `device_id` fails in `value.encode()` (line 34), and a `device_type` that is a number, a boolean, `null` or an object fails in slicing (line 49). A JSON array as `device_type` is sliced to at most 32 elements and reaches the INSERT.
- `Masking.MaskField`: the hash is total, so the `UnicodeEncodeError` that `value.encode()` (line 34) raises on a string holding a lone surrogate (such as `"\ud800"`) is not modelled. In the code that failure takes the same path as a missing key.
- `datetime.now()` is the `now` field of `MessageIo`. `time.sleep` is reported as the number of seconds slept.
- Termination of `main` and of `poll_sqs_queue` is not modelled: both depend on the depth oracle or run forever. The loops run over finite scripts, and the drain's stop condition is stated exactly.
- Whether `error_records` exists has no effect in the model: `Tables.errorTableExists` is recorded, but whether a row lands depends only on the oracle's answers to `CREATE TABLE IF NOT EXISTS` and the INSERT.
- The text of `str(error)` is not modelled: error rows carry the fault itself (`Gateway.Fault`). `error_id` is the row's position.
- Logging, `print(user_data)`, dotenv/credential loading and the module-level configuration are left out.
- `csv_to_sqs.py` is a one-shot CSV-to-queue loader with no logic to verify, so it is not part of this model.
- Reading inserted rows back is not modelled, because the code never does it.

=== FILE: etl.dfy ===
/** The per-message code of user_logins_etl.py: `process_message` (lines
    51-72), the caller's `except` clause, and the per-message block shared
    by `poll_sqs_queue` and `main` (lines 151-157 and 186-193). The loops
    around it are in loops.dfy. */
module LoginsEtl {
  import opened Wrappers
  import opened Masking
  import opened Normalizer
  import opened SqsQueue
  import opened Gateway

  /** The two library calls the model does not open up: `json.loads` on a
      body (None when it raises) and SHA-256. */
  datatype Externals = Externals(parseJson: string -> Option<Payload>, sha256: Hasher)

  /** Everything the loop changes: the queue and the database. */
  datatype State = State(queue: seq<Message>, db: Tables)

  /** `main` commits after every delete; `poll_sqs_queue` never commits. */
  datatype Mode = BoundedDrain | Continuous

  /** What the outside world answers while one message is handled: the
      clock, the login INSERT, the `log_error` inside `process_message`, the
      delete, the commit, and the `log_error` in the caller's handler. */
  datatype MessageIo = MessageIo(
    now: Timestamp,
    insertOk: bool,
    processLog: LogIo,
    deleteOk: bool,
    commitOk: bool,
    handlerLog: LogIo)

  /** `process_message` returns normally: the body parses, carries all six
      keys, and the INSERT goes through. */
  predicate Accepted(ext: Externals, m: Message, io: MessageIo) {
    match ext.parseJson(m.body)
    case None => false
    case Some(body) => Complete(body) && io.insertOk
  }

  /** `rec` is the normalisation of `m`'s body at the time it carries. */
  ghost predicate FromMessage(ext: Externals, m: Message, rec: LoginRecord) {
    ext.parseJson(m.body).Some? && RecordOf(ext.sha256, ext.parseJson(m.body).value, rec.createDate, rec)
  }

  /** The fault both error rows of a failed message carry. */
  ghost predicate FaultFits(ext: Externals, m: Message, io: MessageIo, f: Fault) {
    match ext.parseJson(m.body)
    case None => false
    case Some(body) =>
      && (!Complete(body) ==> f.MissingKey? && BlamedFirst(body, f.key))
      && (Complete(body) && !io.insertOk ==> f == InsertFailed)
      && (Complete(body) && io.insertOk ==> f == CommitFailed)
  }

  /** The outcome table for error rows: how many `error_records` rows one
      message produces. Nothing when the body does not parse (the handler
      raises before it logs); one row from `process_message` and one from
      the caller when normalising or inserting fails; one from the caller
      when only the commit of `main` fails. */
  function ErrorAppends(ext: Externals, mode: Mode, m: Message, io: MessageIo): nat {
    if ext.parseJson(m.body).None? then 0
    else if !Accepted(ext, m, io) then Appends(io.processLog) + Appends(io.handlerLog)
    else if mode == BoundedDrain && !io.commitOk then Appends(io.handlerLog)
    else 0
  }

  datatype Processed = Returned(state: State) | Raised(state: State, fault: Fault)

  /** `process_message`. When `json.loads` raises, the handler's reference
      to the unassigned `message_body` raises in turn before `log_error` is
      reached, so nothing is logged. */
  function ProcessMessage(ext: Externals, s: State, m: Message, io: MessageIo): (r: Processed)
    ensures r.Returned? <==> Accepted(ext, m, io)
    ensures r.state.queue == s.queue && r.state.db.commits == s.db.commits
    // a login row exactly on normal return, and it is the message's record
    ensures r.Returned? ==>
              && |r.state.db.logins| == |s.db.logins| + 1
              && r.state.db.logins[..|s.db.logins|] == s.db.logins
              && FromMessage(ext, m, r.state.db.logins[|s.db.logins|])
              && r.state.db.logins[|s.db.logins|].createDate == io.now
              && r.state.db.errors == s.db.errors
    ensures r.Raised? ==> r.state.db.logins == s.db.logins
    // an unparsable body: nothing logged
    ensures ext.parseJson(m.body).None? ==> r == Raised(s, UnboundBody)
    // any other failure: the fault, logged once with the annotated body
    ensures r.Raised? && ext.parseJson(m.body).Some? ==>
              && FaultFits(ext, m, io, r.fault)
              && |r.state.db.errors| == |s.db.errors| + Appends(io.processLog)
              && r.state.db.errors[..|s.db.errors|] == s.db.errors
              && (Appends(io.processLog) == 1 ==>
                    r.state.db.errors[|s.db.errors|]
                    == ErrorRecord(r.fault, m, BuildRecord(ext.sha256, ext.parseJson(m.body).value, io.now).working))
  {
    match ext.parseJson(m.body)
    case None => Raised(s, UnboundBody)
    case Some(body) =>
      var built := BuildRecord(ext.sha256, body, io.now);
      match built.record
      case Err(key) =>
        var row := ErrorRecord(MissingKey(key), m, built.working);
        Raised(s.(db := LogError(s.db, io.processLog, row)), MissingKey(key))
      case Ok(rec) =>
        match InsertData(s.db, rec, io.insertOk)
        case Ok(db) => Returned(s.(db := db))
        case Err(fault) =>
          var row := ErrorRecord(fault, m, built.working);
          Raised(s.(db := LogError(s.db, io.processLog, row)), fault)
  }

  datatype Handled = Continued(state: State) | Escaped(state: State)

  /** The caller's `except` clause: it parses the body afresh and logs the
      fault with it; when the body does not parse, that parse raises and the
      exception leaves the loop. */
  function Recover(ext: Externals, s: State, m: Message, fault: Fault, io: MessageIo): Handled {
    match ext.parseJson(m.body)
    case None => Escaped(s)
    case Some(body) => Continued(s.(db := LogError(s.db, io.handlerLog, ErrorRecord(fault, m, body))))
  }

  /** The per-message block of both loops. The exception escapes exactly
      when the body does not parse, and then nothing has been recorded. */
  function HandleMessage(ext: Externals, mode: Mode, s: State, m: Message, io: MessageIo): (r: Handled)
    ensures r.Escaped? <==> ext.parseJson(m.body).None?
    ensures r.Escaped? ==> r.state == s
    ensures mode == Continuous ==> r.state.db.commits == s.db.commits
  {
    match ProcessMessage(ext, s, m, io)
    case Returned(s1) =>
      var s2 := s1.(queue := DeleteMessage(s1.queue, m.receiptHandle, io.deleteOk));
      if mode == Continuous then Continued(s2)
      else if io.commitOk then Continued(s2.(db := s2.db.(commits := s2.db.commits + 1)))
      else Recover(ext, s2, m, CommitFailed, io)
    case Raised(s1, fault) => Recover(ext, s1, m, fault, io)
  }

  /** What one message does to the queue, the login table and the commit
      count. */
  lemma HandleMessageOutcome(ext: Externals, mode: Mode, s: State, m: Message, io: MessageIo)
    ensures var r := HandleMessage(ext, mode, s, m, io).state;
      // a login row exactly when process_message returns normally, and it
      // is the message's record
      && (Accepted(ext, m, io) ==>
            && |r.db.logins| == |s.db.logins| + 1
            && r.db.logins[..|s.db.logins|] == s.db.logins
            && FromMessage(ext, m, r.db.logins[|s.db.logins|])
            && r.db.logins[|s.db.logins|].createDate == io.now)
      && (!Accepted(ext, m, io) ==> r.db.logins == s.db.logins)
      // deleted (when the service obliges) and committed only on normal return
      && r.queue == (if Accepted(ext, m, io) then DeleteMessage(s.queue, m.receiptHandle, io.deleteOk) else s.queue)
      && r.db.commits
         == s.db.commits + (if Accepted(ext, m, io) && mode == BoundedDrain && io.commitOk then 1 else 0)
  {
  }

  /** How many error rows one message adds: the outcome table, with every
      earlier row kept. */
  lemma HandleMessageErrors(ext: Externals, mode: Mode, s: State, m: Message, io: MessageIo)
    ensures var r := HandleMessage(ext, mode, s, m, io).state;
      && |r.db.errors| == |s.db.errors| + ErrorAppends(ext, mode, m, io)
      && r.db.errors[..|s.db.errors|] == s.db.errors
  {
    match ext.parseJson(m.body)
    case None =>
    case Some(body) =>
      match ProcessMessage(ext, s, m, io)
      case Raised(s1, fault) =>
        assert HandleMessage(ext, mode, s, m, io).state.db
               == LogError(s1.db, io.handlerLog, ErrorRecord(fault, m, body));
      case Returned(s1) =>
        if mode == BoundedDrain && !io.commitOk {
          var s2 := s1.(queue := DeleteMessage(s1.queue, m.receiptHandle, io.deleteOk));
          assert HandleMessage(ext, mode, s, m, io).state.db
                 == LogError(s2.db, io.handlerLog, ErrorRecord(CommitFailed, m, body));
        }
  }

  /** Every error row one message adds is about this message and its
      fault, and the caller's row carries the body as parsed. */
  lemma HandleMessageFaults(ext: Externals, mode: Mode, s: State, m: Message, io: MessageIo)
    ensures var r := HandleMessage(ext, mode, s, m, io).state;
      && (forall i :: |s.db.errors| <= i < |r.db.errors| ==>
            r.db.errors[i].message == m && FaultFits(ext, m, io, r.db.errors[i].errorMessage))
      && (ext.parseJson(m.body).Some? && ErrorAppends(ext, mode, m, io) > 0 && Appends(io.handlerLog) == 1 ==>
            r.db.errors[|r.db.errors| - 1].messageBody == ext.parseJson(m.body).value)
  {
    match ext.parseJson(m.body)
    case None =>
    case Some(body) =>
      match ProcessMessage(ext, s, m, io)
      case Raised(s1, fault) =>
        assert HandleMessage(ext, mode, s, m, io).state.db
               == LogError(s1.db, io.handlerLog, ErrorRecord(fault, m, body));
      case Returned(s1) =>
        if mode == BoundedDrain && !io.commitOk {
          var s2 := s1.(queue := DeleteMessage(s1.queue, m.receiptHandle, io.deleteOk));
          assert HandleMessage(ext, mode, s, m, io).state.db
                 == LogError(s2.db, io.handlerLog, ErrorRecord(CommitFailed, m, body));
        }
  }

}

=== FILE: gateway.dfy ===
/** The persistence gateway of user_logins_etl.py: `insert_data` (lines
    36-46) and `log_error` (lines 74-89) as appends to abstract tables whose
    statements succeed or fail as an oracle says. */
module Gateway {
  import opened Wrappers
  import opened Normalizer
  import opened SqsQueue

  /** The exceptions the per-message code can raise. */
  datatype Fault =
    | MissingKey(key: string)   // KeyError on a body lookup
    | InsertFailed              // the INSERT into user_logins raised
    | CommitFailed              // connection.commit() raised
    | UnboundBody               // the handler read `message_body` before it was assigned
    | MalformedJson             // json.loads raised
    | ReceiveFailed             // receive_sqs_messages re-raised

  /** A row of `error_records`; `error_id` is the row's 1-based position. */
  datatype ErrorRecord = ErrorRecord(errorMessage: Fault, message: Message, messageBody: Payload)

  /** Whether `CREATE TABLE IF NOT EXISTS` and then the INSERT succeed. */
  datatype LogIo = LogIo(createOk: bool, insertOk: bool)

  /** The database as the loop sees it: both tables, whether `error_records`
      has been created, and how many commits have been issued. */
  datatype Tables = Tables(
    logins: seq<LoginRecord>,
    errors: seq<ErrorRecord>,
    errorTableExists: bool,
    commits: nat)

  /** Number of rows one `log_error` call appends under `io`. */
  function Appends(io: LogIo): nat {
    if io.createOk && io.insertOk then 1 else 0
  }

  /** `insert_data`: on failure the exception is re-raised (line 46). */
  function InsertData(db: Tables, rec: LoginRecord, ok: bool): (r: Result<Tables, Fault>)
    ensures r.Ok? <==> ok
    ensures r.Ok? ==> r.value.logins == db.logins + [rec]
    ensures r.Ok? ==> r.value.errors == db.errors && r.value.commits == db.commits
    ensures r.Err? ==> r.error == InsertFailed
  {
    if ok then Ok(db.(logins := db.logins + [rec])) else Err(InsertFailed)
  }

  /** `log_error`: never raises. The row is appended only when both the
      table creation and the insert go through; a failure of either is
      swallowed (line 89), and a failed creation skips the insert. */
  function LogError(db: Tables, io: LogIo, row: ErrorRecord): (r: Tables)
    ensures |r.errors| == |db.errors| + Appends(io)
    ensures r.errors[..|db.errors|] == db.errors
    ensures Appends(io) == 1 ==> r.errors[|db.errors|] == row
    ensures r.errorTableExists <==> db.errorTableExists || io.createOk
    ensures r.logins == db.logins && r.commits == db.commits
  {
    if !io.createOk then db
    else if !io.insertOk then db.(errorTableExists := true)
    else db.(errorTableExists := true, errors := db.errors + [row])
  }

  /** Two failures logged in a row, each time with both statements
      succeeding, both land in order, whether or not the dead-letter table
      existed before. */
  lemma LogErrorTwice(db: Tables, first: ErrorRecord, second: ErrorRecord)
    ensures LogError(LogError(db, LogIo(true, true), first), LogIo(true, true), second).errors
            == db.errors + [first, second]
    ensures LogError(LogError(db, LogIo(true, true), first), LogIo(true, true), second).errorTableExists
  {
    var once := LogError(db, LogIo(true, true), first);
    var twice := LogError(once, LogIo(true, true), second);
    assert once.errors == db.errors + [first];
    assert twice.errors == once.errors + [second];
  }
}

=== FILE: loops.dfy ===
/** The two loops around the per-message block: the bounded drain of `main`
    (user_logins_etl.py:168-199) and the continuous poll of `poll_sqs_queue`
    (lines 144-157). Each loop is run against a finite script of service
    answers; a run that uses the whole script without stopping is still
    running. */
module Loops {
  import opened Wrappers
  import opened Normalizer
  import opened SqsQueue
  import opened Gateway
  import opened LoginsEtl

  /** Bookkeeping that holds between a state `s` and a later state `t`
      after at most `n` messages were handled: tables only grow, the queue
      only loses messages, every delete and every commit is matched by a
      login row, and each message adds at most one login row and two error
      rows. */
  ghost predicate Accounted(s: State, t: State, n: nat) {
    && |s.db.logins| <= |t.db.logins| && t.db.logins[..|s.db.logins|] == s.db.logins
    && |s.db.errors| <= |t.db.errors| && t.db.errors[..|s.db.errors|] == s.db.errors
    && multiset(t.queue) <= multiset(s.queue)
    && s.db.commits <= t.db.commits
    && t.db.commits - s.db.commits <= |t.db.logins| - |s.db.logins|
    && |s.queue| - |t.queue| <= |t.db.logins| - |s.db.logins|
    && |t.db.logins| - |s.db.logins| <= n
    && |t.db.errors| - |s.db.errors| <= 2 * n
  }

  /** Every login row added between `s` and `t` is the record of one of
      `source`'s messages. */
  ghost predicate RowsFrom(ext: Externals, s: State, t: State, source: seq<Message>) {
    forall k :: |s.db.logins| <= k < |t.db.logins| ==> Sourced(ext, t.db.logins[k], source)
  }

  /** `rec` is the record of some message of `source`. */
  ghost predicate Sourced(ext: Externals, rec: LoginRecord, source: seq<Message>) {
    exists m :: m in source && FromMessage(ext, m, rec)
  }

  lemma AccountedTrans(a: State, b: State, c: State, n: nat, n': nat)
    requires Accounted(a, b, n) && Accounted(b, c, n')
    ensures Accounted(a, c, n + n')
  {
    assert c.db.logins[..|a.db.logins|] == c.db.logins[..|b.db.logins|][..|a.db.logins|];
    assert c.db.errors[..|a.db.errors|] == c.db.errors[..|b.db.errors|][..|a.db.errors|];
  }

  lemma RowsFromTrans(ext: Externals, a: State, b: State, c: State, source: seq<Message>,
                      first: seq<Message>, second: seq<Message>)
    requires |b.db.logins| <= |c.db.logins| && c.db.logins[..|b.db.logins|] == b.db.logins
    requires RowsFrom(ext, a, b, first) && RowsFrom(ext, b, c, second)
    requires forall m :: m in first ==> m in source
    requires forall m :: m in second ==> m in source
    ensures RowsFrom(ext, a, c, source)
  {
    forall k | |a.db.logins| <= k < |c.db.logins|
      ensures Sourced(ext, c.db.logins[k], source)
    {
      if k < |b.db.logins| {
        assert c.db.logins[k] == c.db.logins[..|b.db.logins|][k];
        assert Sourced(ext, b.db.logins[k], first);
        var m :| m in first && FromMessage(ext, m, b.db.logins[k]);
        assert m in source && FromMessage(ext, m, c.db.logins[k]);
      } else {
        assert Sourced(ext, c.db.logins[k], second);
        var m :| m in second && FromMessage(ext, m, c.db.logins[k]);
        assert m in source && FromMessage(ext, m, c.db.logins[k]);
      }
    }
  }

  lemma SubQueueMembers(q: seq<Message>, q': seq<Message>)
    requires multiset(q') <= multiset(q)
    ensures forall m :: m in q' ==> m in q
  {
    forall m | m in q'
      ensures m in q
    {
      assert m in multiset(q');
    }
  }

  /** Two stretches of a run compose: the books add up and every row
      still comes from the queue the run started with. */
  lemma RunStep(ext: Externals, s: State, t: State, u: State, n: nat, n': nat, batch: seq<Message>)
    requires Accounted(s, t, n) && Accounted(t, u, n')
    requires RowsFrom(ext, s, t, batch) && forall m :: m in batch ==> m in s.queue
    requires RowsFrom(ext, t, u, t.queue)
    ensures Accounted(s, u, n + n')
    ensures RowsFrom(ext, s, u, s.queue)
  {
    AccountedTrans(s, t, u, n, n');
    SubQueueMembers(s.queue, t.queue);
    RowsFromTrans(ext, s, t, u, s.queue, batch, t.queue);
  }

  /** One message handled keeps the books. */
  lemma HandleAccounted(ext: Externals, mode: Mode, s: State, m: Message, io: MessageIo)
    ensures Accounted(s, HandleMessage(ext, mode, s, m, io).state, 1)
    ensures RowsFrom(ext, s, HandleMessage(ext, mode, s, m, io).state, [m])
  {
    HandleMessageOutcome(ext, mode, s, m, io);
    HandleMessageErrors(ext, mode, s, m, io);
    var t := HandleMessage(ext, mode, s, m, io).state;
    if Accepted(ext, m, io) {
      assert FromMessage(ext, m, t.db.logins[|s.db.logins|]);
      assert Sourced(ext, t.db.logins[|s.db.logins|], [m]);
    }
  }

  /** `for message in messages`, from position `i` on; `ios(j)` answers for
      the message at position `j`. */
  function HandleBatch(ext: Externals, mode: Mode, s: State, batch: seq<Message>,
                       ios: nat -> MessageIo, i: nat): (r: Handled)
    requires i <= |batch|
    decreases |batch| - i
    // one failing message does not stop the batch: only an unparsable body does
    ensures r.Escaped? <==> exists j :: i <= j < |batch| && ext.parseJson(batch[j].body).None?
    ensures mode == Continuous ==> r.state.db.commits == s.db.commits
  {
    if i == |batch| then Continued(s)
    else
      var h := HandleMessage(ext, mode, s, batch[i], ios(i));
      if h.Escaped? then h
      else
        var r := HandleBatch(ext, mode, h.state, batch, ios, i + 1);
        assert r.Escaped? <==> (exists j :: i <= j < |batch| && ext.parseJson(batch[j].body).None?) by {
          assert ext.parseJson(batch[i].body).Some?;
        }
        r
  }

  /** A batch of one message, the most a receive returns, is exactly the
      per-message block applied to that message. */
  lemma HandleBatchOne(ext: Externals, mode: Mode, s: State, batch: seq<Message>, ios: nat -> MessageIo)
    requires |batch| == 1
    ensures HandleBatch(ext, mode, s, batch, ios, 0).state == HandleMessage(ext, mode, s, batch[0], ios(0)).state
  {
    var h := HandleMessage(ext, mode, s, batch[0], ios(0));
    if h.Continued? {
      assert HandleBatch(ext, mode, h.state, batch, ios, 1) == Continued(h.state);
    }
  }

  /** A batch keeps the books, and every row it adds is the record of one
      of its messages. */
  lemma {:induction false} HandleBatchAccounted(ext: Externals, mode: Mode, s: State, batch: seq<Message>,
                                                ios: nat -> MessageIo, i: nat)
    requires i <= |batch|
    ensures Accounted(s, HandleBatch(ext, mode, s, batch, ios, i).state, |batch| - i)
    ensures RowsFrom(ext, s, HandleBatch(ext, mode, s, batch, ios, i).state, batch[i..])
    decreases |batch| - i
  {
    if i < |batch| {
      HandleAccounted(ext, mode, s, batch[i], ios(i));
      var h := HandleMessage(ext, mode, s, batch[i], ios(i));
      if h.Continued? {
        var t := h.state;
        HandleBatchAccounted(ext, mode, t, batch, ios, i + 1);
        var u := HandleBatch(ext, mode, t, batch, ios, i + 1).state;
        AccountedTrans(s, t, u, 1, |batch| - (i + 1));
        RowsFromTrans(ext, s, t, u, batch[i..], [batch[i]], batch[i + 1..]);
      }
    }
  }


  /** One pass of the drain loop's body: the depth query, a receive and the
      batch it returns. */
  datatype Round = Round(depth: DepthReply, receive: ReceiveIo, ios: nat -> MessageIo)

  datatype Status = Exited | Crashed(cause: Fault) | Running

  /** How a run ended, in which state, after how many rounds of the script. */
  datatype RunEnd = RunEnd(status: Status, state: State, used: nat)

  datatype RoundEnd = ExitLoop(state: State) | CrashLoop(state: State, cause: Fault) | NextRound(state: State)

  /** Some message of `queue` has a body that `json.loads` rejects. */
  ghost predicate SomeUnparsable(ext: Externals, queue: seq<Message>) {
    exists m :: m in queue && ext.parseJson(m.body).None?
  }

  /** One pass of `main`'s loop body. */
  function DrainRound(ext: Externals, s: State, round: Round): (r: RoundEnd)
    ensures r.ExitLoop? <==> MessageCount(round.depth) == 0
    ensures r.ExitLoop? ==> r.state == s
    // the receive sits outside any `try` (line 184): its failure ends the loop
    ensures MessageCount(round.depth) != 0 && round.receive.ReceiveFails? ==> r == CrashLoop(s, ReceiveFailed)
    ensures r.CrashLoop? ==>
              || (r.cause == ReceiveFailed && round.receive.ReceiveFails? && r.state == s)
              || (r.cause == MalformedJson && SomeUnparsable(ext, s.queue))
  {
    if MessageCount(round.depth) == 0 then ExitLoop(s)
    else match Receive(s.queue, round.receive)
      case None => CrashLoop(s, ReceiveFailed)
      case Some(batch) =>
        match HandleBatch(ext, BoundedDrain, s, batch, round.ios, 0)
        case Escaped(t) =>
          assert SomeUnparsable(ext, s.queue) by {
            var j :| 0 <= j < |batch| && ext.parseJson(batch[j].body).None?;
            assert batch[j] in batch;
          }
          CrashLoop(t, MalformedJson)
        case Continued(t) => NextRound(t)
  }

  /** A message delivered in a round of `main` goes through the
      per-message block, commit included (lines 186-193). */
  lemma DrainRoundDelivers(ext: Externals, s: State, round: Round)
    ensures MessageCount(round.depth) != 0 && round.receive.Deliver? && round.receive.index < |s.queue| ==>
              DrainRound(ext, s, round).state
              == HandleMessage(ext, BoundedDrain, s, s.queue[round.receive.index], round.ios(0)).state
  {
    if MessageCount(round.depth) != 0 && round.receive.Deliver? && round.receive.index < |s.queue| {
      HandleBatchOne(ext, BoundedDrain, s, [s.queue[round.receive.index]], round.ios);
    }
  }

  /** One round of the drain keeps the books: at most one message is
      handled, and its row comes from the queue. */
  lemma DrainRoundAccounted(ext: Externals, s: State, round: Round)
    ensures Accounted(s, DrainRound(ext, s, round).state, MaxNumberOfMessages)
    ensures RowsFrom(ext, s, DrainRound(ext, s, round).state, s.queue)
  {
    if MessageCount(round.depth) != 0 && !round.receive.ReceiveFails? {
      var batch := Receive(s.queue, round.receive).value;
      var h := HandleBatch(ext, BoundedDrain, s, batch, round.ios, 0);
      HandleBatchAccounted(ext, BoundedDrain, s, batch, round.ios, 0);
      assert batch[0..] == batch;
      RowsFromTrans(ext, s, h.state, h.state, s.queue, batch, []);
    }
  }

  /** The body of a drain loop: what one round does to the state. */
  type RoundStep = (State, Round) -> RoundEnd

  /** `main`'s loop body as a round step. */
  function DrainStep(ext: Externals): RoundStep {
    (s: State, round: Round) => DrainRound(ext, s, round)
  }

  /** A round step that stops the way `main`'s body does: it leaves the
      loop exactly on a zero reading, crashes on a failed receive after a
      non-zero one, and crashes otherwise only on an unparsable body in the
      queue. */
  ghost predicate StopsOnZero(ext: Externals, step: RoundStep) {
    forall s: State, round: Round ::
      && (step(s, round).ExitLoop? <==> MessageCount(round.depth) == 0)
      && (MessageCount(round.depth) != 0 && round.receive.ReceiveFails? ==>
            step(s, round) == CrashLoop(s, ReceiveFailed))
      && (step(s, round).CrashLoop? ==>
            || (step(s, round).cause == ReceiveFailed && round.receive.ReceiveFails?)
            || (step(s, round).cause == MalformedJson && SomeUnparsable(ext, s.queue)))
  }

  /** A round step that keeps the books over one message of the queue. */
  ghost predicate KeepsBooks(ext: Externals, step: RoundStep) {
    forall s: State, round: Round ::
      && Accounted(s, step(s, round).state, MaxNumberOfMessages)
      && RowsFrom(ext, s, step(s, round).state, s.queue)
  }

  lemma DrainStepStopsOnZero(ext: Externals)
    ensures StopsOnZero(ext, DrainStep(ext))
  {
    forall s: State, round: Round
      ensures DrainStep(ext)(s, round) == DrainRound(ext, s, round)
    {
    }
  }

  lemma DrainStepKeepsBooks(ext: Externals)
    ensures KeepsBooks(ext, DrainStep(ext))
  {
    forall s: State, round: Round
      ensures && Accounted(s, DrainStep(ext)(s, round).state, MaxNumberOfMessages)
              && RowsFrom(ext, s, DrainStep(ext)(s, round).state, s.queue)
    {
      DrainRoundAccounted(ext, s, round);
    }
  }

  /** A drain loop with body `step`, from round `k` of the script on;
      `used` counts the rounds of the whole script consumed when the run
      ends. */
  function DrainFrom(step: RoundStep, s: State, rounds: seq<Round>, k: nat): (r: RunEnd)
    requires k <= |rounds|
    decreases |rounds| - k
    ensures k <= r.used <= |rounds|
    // a stop consumes the round it happens in; a run still going used all
    ensures !r.status.Running? ==> r.used > k
    ensures r.status.Running? ==> r.used == |rounds|
  {
    if k == |rounds| then RunEnd(Running, s, k)
    else
      match step(s, rounds[k])
      case ExitLoop(t) => RunEnd(Exited, t, k + 1)
      case CrashLoop(t, cause) => RunEnd(Crashed(cause), t, k + 1)
      case NextRound(t) => DrainFrom(step, t, rounds, k + 1)
  }

  /** The drain stops exactly at a zero reading of the depth query, after
      only non-zero readings and working receives; it crashes only on a
      failed receive or an unparsable body. */
  lemma {:induction false} DrainFromStops(ext: Externals, step: RoundStep, s: State, rounds: seq<Round>, k: nat)
    requires StopsOnZero(ext, step)
    requires k <= |rounds|
    ensures var r := DrainFrom(step, s, rounds, k);
            && (r.status.Exited? <==> k < r.used && MessageCount(rounds[r.used - 1].depth) == 0)
            && (forall j :: k <= j < r.used - 1 ==> MessageCount(rounds[j].depth) != 0)
            && (forall j :: k <= j < r.used - 1 ==> !rounds[j].receive.ReceiveFails?)
            && (r.status.Crashed? ==>
                  || (r.status.cause == ReceiveFailed && rounds[r.used - 1].receive.ReceiveFails?)
                  || r.status.cause == MalformedJson)
    decreases |rounds| - k
  {
    if k < |rounds| && step(s, rounds[k]).NextRound? {
      DrainFromStops(ext, step, step(s, rounds[k]).state, rounds, k + 1);
    }
  }

  /** A drain that crashes on an unparsable body found one in the queue it
      started from: messages are only ever taken out of the queue. */
  lemma {:induction false} DrainFromCrashes(ext: Externals, step: RoundStep, s: State, rounds: seq<Round>, k: nat)
    requires StopsOnZero(ext, step) && KeepsBooks(ext, step)
    requires k <= |rounds|
    ensures DrainFrom(step, s, rounds, k).status == Crashed(MalformedJson) ==> SomeUnparsable(ext, s.queue)
    decreases |rounds| - k
  {
    if k < |rounds| && step(s, rounds[k]).NextRound? {
      var t := step(s, rounds[k]).state;
      DrainFromCrashes(ext, step, t, rounds, k + 1);
      if DrainFrom(step, t, rounds, k + 1).status == Crashed(MalformedJson) {
        var m :| m in t.queue && ext.parseJson(m.body).None?;
        SubQueueMembers(s.queue, t.queue);
        assert m in s.queue;
      }
    }
  }

  /** The books hold over a drain, round by round. */
  lemma {:induction false} DrainFromAccounted(ext: Externals, step: RoundStep, s: State,
                                              rounds: seq<Round>, k: nat)
    requires KeepsBooks(ext, step)
    requires k <= |rounds|
    ensures var r := DrainFrom(step, s, rounds, k);
            Accounted(s, r.state, r.used - k) && RowsFrom(ext, s, r.state, s.queue)
    decreases |rounds| - k
  {
    if k < |rounds| {
      var t := step(s, rounds[k]).state;
      if step(s, rounds[k]).NextRound? {
        DrainFromAccounted(ext, step, t, rounds, k + 1);
        var r := DrainFrom(step, t, rounds, k + 1);
        RunStep(ext, s, t, r.state, 1, r.used - (k + 1), s.queue);
      }
    }
  }

  /** `main`'s loop: it stops exactly when the depth query reads 0. */
  function Drain(ext: Externals, s: State, rounds: seq<Round>): (r: RunEnd)
    ensures r.used <= |rounds|
    ensures r.status.Running? ==> r.used == |rounds|
    ensures !r.status.Running? ==> r.used >= 1
    // exit exactly at a zero reading, and every earlier reading was non-zero
    ensures r.status.Exited? <==> 1 <= r.used <= |rounds| && MessageCount(rounds[r.used - 1].depth) == 0
    ensures forall j :: 0 <= j < r.used - 1 ==> MessageCount(rounds[j].depth) != 0
    // a failed receive ends the run at once, and so does an unparsable
    // body, which must then be in the starting queue
    ensures forall j :: 0 <= j < r.used - 1 ==> !rounds[j].receive.ReceiveFails?
    ensures r.status.Crashed? ==>
              && 1 <= r.used <= |rounds|
              && (|| (r.status.cause == ReceiveFailed && rounds[r.used - 1].receive.ReceiveFails?)
                  || (r.status.cause == MalformedJson && SomeUnparsable(ext, s.queue)))
    // the books hold, with at most one message per round, and no row is
    // made up
    ensures Accounted(s, r.state, r.used)
    ensures RowsFrom(ext, s, r.state, s.queue)
  {
    DrainStepStopsOnZero(ext);
    DrainStepKeepsBooks(ext);
    DrainFromStops(ext, DrainStep(ext), s, rounds, 0);
    DrainFromCrashes(ext, DrainStep(ext), s, rounds, 0);
    DrainFromAccounted(ext, DrainStep(ext), s, rounds, 0);
    DrainFrom(DrainStep(ext), s, rounds, 0)
  }

  /** How long `poll_sqs_queue` sleeps after an empty receive (line 148). */
  const IdleSleepSeconds: nat := 10

  /** One pass of the continuous loop's body: a receive and the batch it
      returns. */
  datatype PollRound = PollRound(receive: ReceiveIo, ios: nat -> MessageIo)

  datatype PollEnd = Slept(state: State, seconds: nat) | Polled(state: State) | Crash(state: State, cause: Fault)

  function PollOnce(ext: Externals, s: State, round: PollRound): (r: PollEnd)
    ensures r.Slept? <==> Receive(s.queue, round.receive) == Some([])
    ensures r.Slept? ==> r.state == s && r.seconds == IdleSleepSeconds
    // the receive sits outside any `try` (line 145): its failure ends the loop
    ensures round.receive.ReceiveFails? ==> r == Crash(s, ReceiveFailed)
    // a delivered message goes through the per-message block (lines 151-157)
    ensures round.receive.Deliver? && round.receive.index < |s.queue| ==>
              r.state == HandleMessage(ext, Continuous, s, s.queue[round.receive.index], round.ios(0)).state
    ensures r.Crash? ==>
              || (r.cause == ReceiveFailed && round.receive.ReceiveFails? && r.state == s)
              || (r.cause == MalformedJson && SomeUnparsable(ext, s.queue))
    ensures r.state.db.commits == s.db.commits
    ensures Accounted(s, r.state, MaxNumberOfMessages)
    ensures RowsFrom(ext, s, r.state, s.queue)
  {
    match Receive(s.queue, round.receive)
    case None => Crash(s, ReceiveFailed)
    case Some(batch) =>
      if batch == [] then Slept(s, IdleSleepSeconds)
      else
        var h := HandleBatch(ext, Continuous, s, batch, round.ios, 0);
        assert |batch| == 1 ==> h.state == HandleMessage(ext, Continuous, s, batch[0], round.ios(0)).state by {
          if |batch| == 1 { HandleBatchOne(ext, Continuous, s, batch, round.ios); }
        }
        HandleBatchAccounted(ext, Continuous, s, batch, round.ios, 0);
        assert batch[0..] == batch;
        RowsFromTrans(ext, s, h.state, h.state, s.queue, batch, []);
        assert MaxNumberOfMessages == 1;
        match h
        case Escaped(t) =>
          assert SomeUnparsable(ext, s.queue) by {
            var j :| 0 <= j < |batch| && ext.parseJson(batch[j].body).None?;
            assert batch[j] in batch;
          }
          Crash(t, MalformedJson)
        case Continued(t) => Polled(t)
  }

  /** `poll_sqs_queue`'s loop: it never leaves of its own accord and never
      commits. */
  function Poll(ext: Externals, s: State, rounds: seq<PollRound>): (r: RunEnd)
    decreases |rounds|, 1
    ensures !r.status.Exited?
    ensures r.status.Running? ==> r.used == |rounds|
    // a failed receive ends the run at once, and so does an unparsable
    // body, which must then be in the starting queue
    ensures r.used <= |rounds|
    ensures forall j :: 0 <= j < r.used - 1 ==> !rounds[j].receive.ReceiveFails?
    ensures r.status.Crashed? ==>
              && 1 <= r.used <= |rounds|
              && (|| (r.status.cause == ReceiveFailed && rounds[r.used - 1].receive.ReceiveFails?)
                  || (r.status.cause == MalformedJson && SomeUnparsable(ext, s.queue)))
    ensures r.state.db.commits == s.db.commits
    ensures Accounted(s, r.state, r.used)
    ensures RowsFrom(ext, s, r.state, s.queue)
  {
    if |rounds| == 0 then RunEnd(Running, s, 0)
    else
      match PollOnce(ext, s, rounds[0])
      case Crash(t, cause) => RunEnd(Crashed(cause), t, 1)
      case Slept(t, _) => PollOn(ext, s, t, rounds)
      case Polled(t) => PollOn(ext, s, t, rounds)
  }

  /** The rest of a continuous run after a first round that moved from
      `s` to `t` without crashing. */
  function PollOn(ext: Externals, s: State, t: State, rounds: seq<PollRound>): (r: RunEnd)
    requires |rounds| >= 1 && !rounds[0].receive.ReceiveFails?
    requires Accounted(s, t, 1) && RowsFrom(ext, s, t, s.queue) && t.db.commits == s.db.commits
    decreases |rounds|, 0
    ensures !r.status.Exited?
    ensures r.status.Running? ==> r.used == |rounds|
    ensures r.used <= |rounds|
    ensures forall j :: 0 <= j < r.used - 1 ==> !rounds[j].receive.ReceiveFails?
    ensures r.status.Crashed? ==>
              && 1 <= r.used <= |rounds|
              && (|| (r.status.cause == ReceiveFailed && rounds[r.used - 1].receive.ReceiveFails?)
                  || (r.status.cause == MalformedJson && SomeUnparsable(ext, s.queue)))
    ensures r.state.db.commits == s.db.commits
    ensures Accounted(s, r.state, r.used)
    ensures RowsFrom(ext, s, r.state, s.queue)
  {
    var r := Poll(ext, t, rounds[1..]);
    RunStep(ext, s, t, r.state, 1, r.used, s.queue);
    assert forall j :: 1 <= j < r.used + 1 ==> rounds[j] == rounds[1..][j - 1];
    assert r.status == Crashed(MalformedJson) ==> SomeUnparsable(ext, s.queue) by {
      if r.status == Crashed(MalformedJson) {
        var m :| m in t.queue && ext.parseJson(m.body).None?;
        SubQueueMembers(s.queue, t.queue);
        assert m in s.queue;
      }
    }
    RunEnd(r.status, r.state, r.used + 1)
  }

  /** The drain loop stops at the first zero reading of the depth query,
      unless it crashed before reaching it. */
  lemma DrainStopsAtFirstZero(ext: Externals, s: State, rounds: seq<Round>, i: nat)
    requires i < |rounds| && MessageCount(rounds[i].depth) == 0
    requires forall j :: 0 <= j < i ==> MessageCount(rounds[j].depth) != 0
    ensures var r := Drain(ext, s, rounds);
            r.status.Crashed? || (r.status.Exited? && r.used == i + 1)
  {
  }

  /** A drain whose first depth reading is 0 (or whose first query fails)
      exits at once and touches nothing. */
  lemma ZeroDepthExitsAtOnce(ext: Externals, s: State, rounds: seq<Round>)
    requires |rounds| >= 1 && (rounds[0].depth == QueryFailed || rounds[0].depth == Reported(0))
    ensures Drain(ext, s, rounds) == RunEnd(Exited, s, 1)
  {
  }

  /** As long as the depth query keeps reading non-zero and every body
      parses, the drain neither exits nor crashes, whatever the database
      and the delete calls do. */
  lemma DrainKeepsGoing(ext: Externals, s: State, rounds: seq<Round>)
    requires forall j :: 0 <= j < |rounds| ==> MessageCount(rounds[j].depth) != 0
    requires forall j :: 0 <= j < |rounds| ==> !rounds[j].receive.ReceiveFails?
    requires forall m :: m in s.queue ==> ext.parseJson(m.body).Some?
    ensures Drain(ext, s, rounds).status.Running?
  {
    DrainFromKeepsGoing(ext, s, rounds, 0);
  }

  lemma {:induction false} DrainFromKeepsGoing(ext: Externals, s: State, rounds: seq<Round>, k: nat)
    requires k <= |rounds|
    requires forall j :: k <= j < |rounds| ==> MessageCount(rounds[j].depth) != 0
    requires forall j :: k <= j < |rounds| ==> !rounds[j].receive.ReceiveFails?
    requires forall m :: m in s.queue ==> ext.parseJson(m.body).Some?
    ensures DrainFrom(DrainStep(ext), s, rounds, k).status.Running?
    decreases |rounds| - k
  {
    if k < |rounds| {
      RoundContinues(ext, s, rounds[k]);
      assert DrainStep(ext)(s, rounds[k]) == DrainRound(ext, s, rounds[k]);
      var t := DrainRound(ext, s, rounds[k]).state;
      DrainFromKeepsGoing(ext, t, rounds, k + 1);
    }
  }

  /** One round with a non-zero reading, a working receive and parsable
      bodies moves on to the next round, and the queue it leaves still holds
      only parsable bodies. */
  lemma RoundContinues(ext: Externals, s: State, round: Round)
    requires MessageCount(round.depth) != 0 && !round.receive.ReceiveFails?
    requires forall m :: m in s.queue ==> ext.parseJson(m.body).Some?
    ensures DrainRound(ext, s, round).NextRound?
    ensures forall m :: m in DrainRound(ext, s, round).state.queue ==> ext.parseJson(m.body).Some?
  {
    var batch := Receive(s.queue, round.receive).value;
    forall j | 0 <= j < |batch|
      ensures ext.parseJson(batch[j].body).Some?
    {
      assert batch[j] in batch;
    }
    DrainRoundAccounted(ext, s, round);
    SubQueueMembers(s.queue, DrainRound(ext, s, round).state.queue);
  }
}

=== FILE: masking.dfy ===
/** The masking function of user_logins_etl.py: a SHA-256 digest (FIPS 180-4)
    of the field, written as lower-case hexadecimal. The hash itself is an
    oracle supplied by the caller; only the shape of its output is modelled. */
module Masking {

  /** A SHA-256 digest has 256 bits; as hexadecimal that is 64 digits. */
  const DigestLength: nat := 64

  /** The digits `hexdigest()` emits. */
  predicate IsLowerHexDigit(c: char) {
    '0' <= c <= '9' || 'a' <= c <= 'f'
  }

  predicate IsHexDigest(s: string) {
    |s| == DigestLength && forall i :: 0 <= i < |s| ==> IsLowerHexDigit(s[i])
  }

  type HexDigest = s: string | IsHexDigest(s)
    witness seq(64, _ => '0')

  /** SHA-256 of the UTF-8 encoding of a string, as a hex digest. */
  type Hasher = string -> HexDigest

  /** Replaces a sensitive value by its digest. */
  function MaskField(sha256: Hasher, value: string): HexDigest {
    sha256(value)
  }

  /** Masking is a function of the value alone (equal inputs give equal
      tokens, which keeps equality joins possible), and every token has the
      fixed digest width. */
  lemma MaskDeterministic(sha256: Hasher, a: string, b: string)
    requires a == b
    ensures MaskField(sha256, a) == MaskField(sha256, b)
    ensures |MaskField(sha256, a)| == DigestLength
    ensures forall i :: 0 <= i < DigestLength ==> IsLowerHexDigit(MaskField(sha256, a)[i])
  {
  }
}

=== FILE: normalizer.dfy ===
/** The record normaliser: the body of `process_message` up to the insert,
    together with `strip_extra_chars` (user_logins_etl.py:48-65). */
module Normalizer {
  import opened Wrappers
  import opened Masking

  /** A parsed message body: JSON object with string values. */
  type Payload = map<string, string>

  /** The processing time read from the clock; supplied by the caller. */
  type Timestamp = int

  /** A row of the `user_logins` table. */
  datatype LoginRecord = LoginRecord(
    userId: string,
    deviceType: string,
    maskedIp: HexDigest,
    maskedDeviceId: HexDigest,
    locale: string,
    appVersion: string,
    createDate: Timestamp)

  /** `strip_extra_chars`'s default limit, applied to `device_type`. */
  const DeviceTypeLimit: nat := 32

  /** Keys that lines 54-55 add to the parsed body before the record is built. */
  const MaskedIpKey: string := "masked_ip"
  const MaskedDeviceIdKey: string := "masked_device_id"

  /** The order in which the six required keys are first read (lines 54, 55,
      58, 59, 62, 63); it decides which key a failure blames. */
  const ReadOrder: seq<string> := ["ip", "device_id", "user_id", "device_type", "locale", "app_version"]

  function Min(a: int, b: int): int {
    if a <= b then a else b
  }

  /** `s[:limit]`: the longest prefix of `s` that is at most `limit` long. */
  function StripExtraChars(s: string, limit: nat): (r: string)
    ensures |r| == Min(|s|, limit)
    ensures r == s[..|r|]
  {
    if |s| <= limit then s else s[..limit]
  }

  /** A string within the limit comes back unchanged. */
  lemma StripShortUnchanged(s: string, limit: nat)
    requires |s| <= limit
    ensures StripExtraChars(s, limit) == s
  {
  }

  /** Stripping twice is stripping once. */
  lemma StripIdempotent(s: string, limit: nat)
    ensures StripExtraChars(StripExtraChars(s, limit), limit) == StripExtraChars(s, limit)
  {
  }

  /** All six required keys are present. */
  predicate Complete(body: Payload) {
    && "ip" in body
    && "device_id" in body
    && "user_id" in body
    && "device_type" in body
    && "locale" in body
    && "app_version" in body
  }

  /** `key` is the first key of the read order that `body` lacks. */
  ghost predicate BlamedFirst(body: Payload, key: string) {
    exists i :: 0 <= i < |ReadOrder| && ReadOrder[i] == key && key !in body
      && forall j :: 0 <= j < i ==> ReadOrder[j] in body
  }

  /** Blaming the key at position `i` of the read order is right when it is
      absent and every key read before it is present. */
  lemma BlamedAt(body: Payload, i: nat)
    requires i < |ReadOrder| && ReadOrder[i] !in body
    requires i > 0 ==> "ip" in body
    requires i > 1 ==> "device_id" in body
    requires i > 2 ==> "user_id" in body
    requires i > 3 ==> "device_type" in body
    requires i > 4 ==> "locale" in body
    ensures BlamedFirst(body, ReadOrder[i])
  {
    forall j | 0 <= j < i
      ensures ReadOrder[j] in body
    {
      if j == 0 {
      } else if j == 1 {
      } else if j == 2 {
      } else if j == 3 {
      } else {
        assert j == 4;
      }
    }
  }

  /** The six keys `Complete` asks for are exactly the keys of the read order. */
  lemma CompleteIsReadOrder(body: Payload)
    ensures Complete(body) <==> forall i :: 0 <= i < |ReadOrder| ==> ReadOrder[i] in body
  {
    if Complete(body) {
      forall i | 0 <= i < |ReadOrder|
        ensures ReadOrder[i] in body
      {
        if i == 0 {
        } else if i == 1 {
        } else if i == 2 {
        } else if i == 3 {
        } else if i == 4 {
        } else {
          assert i == 5;
        }
      }
    } else {
      var i := if "ip" !in body then 0
               else if "device_id" !in body then 1
               else if "user_id" !in body then 2
               else if "device_type" !in body then 3
               else if "locale" !in body then 4
               else 5;
      assert ReadOrder[i] !in body;
    }
  }

  /** At most one key can be blamed for a body. */
  lemma BlamedUnique(body: Payload, k1: string, k2: string)
    requires BlamedFirst(body, k1) && BlamedFirst(body, k2)
    ensures k1 == k2
  {
    var i1 :| 0 <= i1 < |ReadOrder| && ReadOrder[i1] == k1 && k1 !in body
              && forall j :: 0 <= j < i1 ==> ReadOrder[j] in body;
    var i2 :| 0 <= i2 < |ReadOrder| && ReadOrder[i2] == k2 && k2 !in body
              && forall j :: 0 <= j < i2 ==> ReadOrder[j] in body;
  }

  /** The login row the source promises for a complete body processed at `now`. */
  ghost predicate RecordOf(sha256: Hasher, body: Payload, now: Timestamp, rec: LoginRecord) {
    && Complete(body)
    && rec.userId == body["user_id"]
    && rec.deviceType == StripExtraChars(body["device_type"], DeviceTypeLimit)
    && rec.maskedIp == MaskField(sha256, body["ip"])
    && rec.maskedDeviceId == MaskField(sha256, body["device_id"])
    && rec.locale == body["locale"]
    && rec.appVersion == body["app_version"]
    && rec.createDate == now
  }

  /** What lines 53-65 leave behind: the parsed body as annotated so far (it
      is what the error handler logs) and either the record or the key whose
      lookup raised `KeyError`. */
  datatype Built = Built(working: Payload, record: Result<LoginRecord, string>)

  /** Builds the login record, reading keys in the order the code reads them. */
  function BuildRecord(sha256: Hasher, body: Payload, now: Timestamp): (b: Built)
    // the record is built exactly when no required key is missing, and it is
    // the promised normalisation of the body
    ensures b.record.Ok? <==> Complete(body)
    ensures b.record.Ok? ==> RecordOf(sha256, body, now, b.record.value)
    // otherwise the blamed key is the first absent one in read order
    ensures b.record.Err? ==> BlamedFirst(body, b.record.error)
    // the annotation only adds the two masked keys; every other entry stays
    ensures b.working.Keys <= body.Keys + {MaskedIpKey, MaskedDeviceIdKey}
    ensures forall k :: k in body && k != MaskedIpKey && k != MaskedDeviceIdKey ==>
              k in b.working && b.working[k] == body[k]
    ensures "ip" !in body ==> b.working == body
    ensures "ip" in body ==>
              MaskedIpKey in b.working && b.working[MaskedIpKey] == MaskField(sha256, body["ip"])
    ensures "ip" in body && "device_id" in body ==>
              MaskedDeviceIdKey in b.working && b.working[MaskedDeviceIdKey] == MaskField(sha256, body["device_id"])
    ensures "ip" in body && "device_id" !in body ==>
              (MaskedDeviceIdKey in b.working <==> MaskedDeviceIdKey in body)
  {
    if "ip" !in body then
      BlamedAt(body, 0);
      Built(body, Err("ip"))
    else
      var w1 := body[MaskedIpKey := MaskField(sha256, body["ip"])];
      if "device_id" !in w1 then
        BlamedAt(body, 1);
        Built(w1, Err("device_id"))
      else
        var w2 := w1[MaskedDeviceIdKey := MaskField(sha256, w1["device_id"])];
        if "user_id" !in w2 then
          BlamedAt(body, 2);
          Built(w2, Err("user_id"))
        else if "device_type" !in w2 then
          BlamedAt(body, 3);
          Built(w2, Err("device_type"))
        else if "locale" !in w2 then
          BlamedAt(body, 4);
          Built(w2, Err("locale"))
        else if "app_version" !in w2 then
          BlamedAt(body, 5);
          Built(w2, Err("app_version"))
        else
          Built(w2, Ok(LoginRecord(
            w2["user_id"],
            StripExtraChars(w2["device_type"], DeviceTypeLimit),
            w2[MaskedIpKey],
            w2[MaskedDeviceIdKey],
            w2["locale"],
            w2["app_version"],
            now)))
  }
}

=== FILE: queue.dfy ===
/** The queue client of user_logins_etl.py (lines 93-136): receive, delete
    and the depth query, with the service's answers supplied as oracles. */
module SqsQueue {
  import opened Wrappers

  /** A received message: its serialized body and the receipt handle that
      acknowledges it. */
  datatype Message = Message(body: string, receiptHandle: string)

  /** `MaxNumberOfMessages` of every receive request (line 102). */
  const MaxNumberOfMessages: nat := 1

  /** The service's answer to one receive request: the call raises, no
      message is visible, or the message at `index` of the queue is handed
      out (an index past the end hands out nothing). */
  datatype ReceiveIo = ReceiveFails | NothingVisible | Deliver(index: nat)

  /** `receive_sqs_messages`: `None` when the call raised (line 107). */
  function Receive(queue: seq<Message>, io: ReceiveIo): (r: Option<seq<Message>>)
    ensures r.None? <==> io.ReceiveFails?
    ensures r.Some? ==> |r.value| <= MaxNumberOfMessages
    ensures r.Some? ==> forall m :: m in r.value ==> m in queue
    ensures r.Some? && r.value == [] <==> io.NothingVisible? || (io.Deliver? && io.index >= |queue|)
  {
    match io
    case ReceiveFails => None
    case NothingVisible => Some([])
    case Deliver(i) => if i < |queue| then Some([queue[i]]) else Some([])
  }

  /** The queue after the service honours a delete for `handle`: the first
      message carrying that handle is gone. */
  function RemoveFirst(queue: seq<Message>, handle: string): (r: seq<Message>)
    // only a message with this handle can disappear, and at most one does
    ensures multiset(r) <= multiset(queue)
    ensures forall m :: m in queue && m.receiptHandle != handle ==>
              multiset(r)[m] == multiset(queue)[m]
    ensures |r| == |queue| - 1 <==> exists m :: m in queue && m.receiptHandle == handle
    ensures |r| == |queue| <==> forall m :: m in queue ==> m.receiptHandle != handle
  {
    if |queue| == 0 then queue
    else
      assert queue == [queue[0]] + queue[1..];
      if queue[0].receiptHandle == handle then queue[1..]
      else [queue[0]] + RemoveFirst(queue[1..], handle)
  }

  /** `delete_sqs_message`: a delete the service honours removes the
      message carrying the handle (lines 115-118); a failed delete is logged
      and swallowed (line 121), so the message simply stays in the queue. */
  function DeleteMessage(queue: seq<Message>, handle: string, ok: bool): (r: seq<Message>)
    ensures ok ==> r == RemoveFirst(queue, handle)
    ensures !ok ==> r == queue
    ensures multiset(r) <= multiset(queue)
    ensures |queue| - |r| <= 1
  {
    if ok then RemoveFirst(queue, handle) else queue
  }

  /** The service's answer to the depth query: a count, or a raised error
      (including an attribute that `int()` cannot read). */
  datatype DepthReply = Reported(count: int) | QueryFailed

  /** `get_sqs_message_count`: every failure reads as an empty queue
      (line 136). */
  function MessageCount(reply: DepthReply): (n: int)
    ensures n == 0 <==> reply.QueryFailed? || reply.count == 0
    ensures n != 0 ==> reply == Reported(n)
  {
    match reply
    case Reported(c) => c
    case QueryFailed => 0
  }
}

=== FILE: scenarios.dfy ===
/** Concrete runs of the model: a stored event, a logged failure, a crash
    on an unparsable body, an idle poll, and the orderings of delete and
    commit in user_logins_etl.py. */
module Scenarios {
  import opened Wrappers
  import opened Normalizer
  import opened SqsQueue
  import opened Gateway
  import opened LoginsEtl
  import opened Loops

  /** A login event carrying all six keys, `device_type` shorter than 32. */
  const Event: Payload := map[
    "user_id" := "u1", "device_type" := "ios", "ip" := "1.2.3.4",
    "device_id" := "d1", "locale" := "en-US", "app_version" := "1.0"]

  /** Every database and queue call succeeds. */
  function Smooth(now: Timestamp): MessageIo {
    MessageIo(now, true, LogIo(true, true), true, true, LogIo(true, true))
  }

  /** A complete event is stored once with both sensitive fields masked,
      the message is deleted and the drain commits. */
  lemma CompleteEventIsStored(ext: Externals, s: State, m: Message, now: Timestamp)
    requires ext.parseJson(m.body) == Some(Event)
    ensures HandleMessage(ext, BoundedDrain, s, m, Smooth(now))
            == Continued(State(
                 RemoveFirst(s.queue, m.receiptHandle),
                 s.db.(logins := s.db.logins + [LoginRecord("u1", "ios", ext.sha256("1.2.3.4"), ext.sha256("d1"),
                                                            "en-US", "1.0", now)],
                       commits := s.db.commits + 1)))
  {
    assert Complete(Event);
    var rec := LoginRecord("u1", "ios", ext.sha256("1.2.3.4"), ext.sha256("d1"), "en-US", "1.0", now);
    assert BuildRecord(ext.sha256, Event, now).record == Ok(rec);
    assert ProcessMessage(ext, s, m, Smooth(now)) == Returned(s.(db := s.db.(logins := s.db.logins + [rec])));
  }

  /** The event without `locale`: no login row, no delete, no commit, and
      the failure is logged twice, once by `process_message` with the
      annotated body and once by the caller with the body as parsed. */
  lemma MissingLocaleIsLoggedTwice(ext: Externals, s: State, m: Message, now: Timestamp)
    requires ext.parseJson(m.body) == Some(Event - {"locale"})
    ensures var r := HandleMessage(ext, BoundedDrain, s, m, Smooth(now));
            && r.Continued?
            && r.state.queue == s.queue
            && r.state.db.logins == s.db.logins
            && r.state.db.commits == s.db.commits
            && r.state.db.errors == s.db.errors + [
                 ErrorRecord(MissingKey("locale"), m,
                   (Event - {"locale"})[MaskedIpKey := ext.sha256("1.2.3.4")][MaskedDeviceIdKey := ext.sha256("d1")]),
                 ErrorRecord(MissingKey("locale"), m, Event - {"locale"})]
  {
    var body := Event - {"locale"};
    assert "ip" in body && "device_id" in body && "locale" !in body;
  }

  /** An unparsable body in the drain: the exception leaves the loop, and
      neither table nor the queue has changed. */
  lemma MalformedBodyCrashesDrain(ext: Externals, s: State, round: Round)
    requires MessageCount(round.depth) != 0 && round.receive == Deliver(0)
    requires |s.queue| >= 1 && ext.parseJson(s.queue[0].body).None?
    ensures DrainRound(ext, s, round) == CrashLoop(s, MalformedJson)
  {
    assert Receive(s.queue, round.receive) == Some([s.queue[0]]);
  }

  /** An empty receive in the continuous loop: sleep ten seconds, change
      nothing, poll again. */
  lemma EmptyReceiveSleeps(ext: Externals, s: State, ios: nat -> MessageIo)
    ensures PollOnce(ext, s, PollRound(NothingVisible, ios)) == Slept(s, 10)
  {
  }

  /** A stored message whose delete fails stays in the queue: it will be
      received and stored again (at-least-once delivery, duplicates
      possible). */
  lemma FailedDeleteKeepsMessage(ext: Externals, mode: Mode, s: State, m: Message, io: MessageIo)
    requires Accepted(ext, m, io) && !io.deleteOk
    ensures var r := HandleMessage(ext, mode, s, m, io);
            r.state.queue == s.queue && |r.state.db.logins| == |s.db.logins| + 1
  {
  }

  /** A failed commit in the drain comes after the delete: the message is
      gone from the queue, nothing is committed, and the caller logs one
      `CommitFailed` row. */
  lemma FailedCommitAfterDelete(ext: Externals, s: State, m: Message, io: MessageIo)
    requires Accepted(ext, m, io) && io.deleteOk && !io.commitOk && io.handlerLog == LogIo(true, true)
    ensures var r := HandleMessage(ext, BoundedDrain, s, m, io);
            && r.state.queue == RemoveFirst(s.queue, m.receiptHandle)
            && r.state.db.commits == s.db.commits
            && r.state.db.errors == s.db.errors + [ErrorRecord(CommitFailed, m, ext.parseJson(m.body).value)]
  {
  }

  /** The continuous loop deletes stored messages but never commits. */
  lemma ContinuousDeletesWithoutCommit(ext: Externals, s: State, m: Message, io: MessageIo)
    requires Accepted(ext, m, io) && io.deleteOk
    ensures var r := HandleMessage(ext, Continuous, s, m, io);
            && r.state.queue == RemoveFirst(s.queue, m.receiptHandle)
            && r.state.db.commits == s.db.commits
  {
  }
}

=== FILE: wrappers.dfy ===
/** The optional value and the success-or-error value used throughout the model. */
module Wrappers {

  /** An optional value: `None` stands for "absent" (a missing parse, an unset variable). */
  datatype Option<+T> = None | Some(value: T)

  /** The value of a step that either completes or raises. */
  datatype Result<+T, +E> = Ok(value: T) | Err(error: E)
}
